=== FILE: README.md ===
# scraper_bot core, modelled in Dafny

The bot fetches two news listing pages (VnExpress and 24h.com.vn), keeps a
persisted set of links it has already processed, and posts every new article
whose title mentions a keyword ("nga", "ukraine") to a Telegram chat. This
project models the logic of one run of `scraper.py` with the I/O taken out:

- **LinkStore** — loading the processed-link file. A missing or unparsable
  file gives the empty set. Any other failure escapes the loader and ends the
  run, as does JSON that `set(...)` cannot take, such as a number or a list of
  lists.
- **Scan24h** — the `<a>`-tag filter of the 24h.com.vn fetcher: the section
  marker `-c415a`, the `.html` suffix, a title of at least 15 characters,
  prefixing relative links with `https://www.24h.com.vn`, and the in-pass
  duplicate check. That check looks up the *raw* `href` but records the
  *absolute* link, so a repeated absolute `href` is emitted once while a
  repeated relative one is emitted every time.
- **Triage** — the filter loop of `main`: every fetched link joins the saved
  set, and an article is queued when its link was not loaded and its
  lower-cased title contains a lower-cased keyword. The test is against the
  loaded set, so a new link fetched twice is queued twice.
- **Message** — the HTML notification template.
- **Notifier** — the send loop: up to five attempts; 200 stops with success,
  429 pauses `retry_after + 1` seconds (6 without a hint) and retries, any
  other status stops at once, an exception pauses 5 seconds and retries.
  Replies are a script, one per attempt, and pauses are recorded, not slept.
- **Orchestrator** — one run end to end: the queue is sent in reverse queue
  order (`reversed`), one message per queued article, and the saved set is
  the loaded set plus every fetched link. Because the fetched list is the
  VnExpress articles followed by the 24h.com.vn ones, every queued
  24h.com.vn article is sent before any VnExpress one. Within one listing
  page, reverse order is oldest first only if the page lists the newest
  article first. The code does not check this.

Supporting modules: `Wrappers` (Option), `Strings` (`startswith`, `in`,
ASCII lower-casing), `News` (the article record and its link set).

Two behaviours of the code are easy to miss:

- A fetcher that hits an exception returns the articles it collected before
  it (scraper.py:104-106, 130-133), not an empty list.
- A 429 whose body is not readable JSON raises inside the `try`. So does a
  `retry_after + 1` that `time.sleep` rejects: a negative one, or one above
  9223372036 seconds, the most its 64-bit nanosecond count can hold. The
  handler then pauses 5 seconds (`Notifier.Pause`).

## Model

| member | source | states |
|---|---|---|
| LinkStore.Load | scraper.py:30-43 | a missing or unparsable file gives the empty set; any other open error, a JSON null, boolean or number, or a list holding a list or an object ends the run; a list gives its strings, a string its characters, an object its keys |
| LinkStore.Save | scraper.py:45-47 | the file holds one JSON string per link, in the listing's order |
| LinkStore.SaveThenLoad | scraper.py:30-47 | the links written in any order load back as the same set |
| Strings.Lower | scraper.py:156-157 | lower-casing keeps the length, changes each character independently and leaves no ASCII capital |
| Strings.LowerIdempotent | scraper.py:156-157 | lower-casing an already lower-cased title changes nothing |
| Notifier.Retries | scraper.py:65-85 | the loop goes round again exactly after a 429 or an exception |
| Notifier.Pause | scraper.py:69-76 | an exception or an unreadable 429 body pauses 5 seconds; a retry_after n pauses n + 1 when time.sleep accepts it and 5 otherwise; no pause exceeds the sleep bound |
| Notifier.VerdictOf | scraper.py:65-81 | a 200 ends delivered, any other stopping status ends refused with that status |
| Notifier.SendFrom | scraper.py:61-87 | from attempt i on, the loop ends after between i and five attempts |
| Notifier.Send | scraper.py:51-87 | a send makes at least one and at most five attempts |
| Notifier.SendFromSpec | scraper.py:61-87 | from attempt i on, every attempt but the last asked for a retry and left one pause of the right length; the last reply decides the verdict unless the five-attempt budget ran out |
| Notifier.SendSpec | scraper.py:61-87 | for a whole send, retries come only from 429s and exceptions; 200 stops with success; any other status stops, refused; one pause is recorded per retry, the fifth attempt included |
| Notifier.AttemptsAreFirstStop | scraper.py:61-81 | the attempt count is the position of the first reply that is neither 429 nor an exception, or five if there is none |
| Notifier.FirstTimeSuccess | scraper.py:65-67 | a 200 on the first attempt gives one attempt, no pause, delivered |
| Notifier.OtherStatusNotRetried | scraper.py:78-81 | a status other than 200 and 429 ends the send after that attempt, unretried |
| Notifier.RateLimitThenSuccess | scraper.py:69-76 | a 429 with retry_after n, n + 1 within the sleep bound, followed by a 200 gives two attempts, one pause of n + 1, delivered |
| Notifier.UnsleepableDelayPausesFive | scraper.py:69-85 | a retry_after whose n + 1 is negative or above the sleep bound pauses 5 seconds and the send goes on to a second attempt |
| Notifier.UnreadableBodyPausesFive | scraper.py:69-85 | a 429 whose body cannot be read pauses 5 seconds in the exception handler and the send goes on to a second attempt |
| Notifier.MissingHintPausesSix | scraper.py:72-76 | a 429 without retry_after pauses 6 seconds |
| Notifier.Exhaustion | scraper.py:61-87 | five retrying replies give exactly five attempts, five pauses and no delivery |
| Scan24h.Absolute | scraper.py:126-127 | every normalised link starts with "http" and ends with the href; it equals the href exactly when the href already started with "http", and is "https://www.24h.com.vn" followed by the href otherwise |
| Scan24h.ArticleOf | scraper.py:123-128 | a tag's article has the tag's stripped text as title, source "24h.com.vn", and an absolute link ending with the href |
| Scan24h.Eligible | scraper.py:119-125 | a tag passes when it has an href containing "-c415a" and ".html" and a title of at least 15 characters |
| Scan24h.Step | scraper.py:119-129 | one tag is emitted, and its absolute link recorded, when it passes and its raw href was not recorded |
| Scan24h.Scan | scraper.py:117-129 | the found set is exactly the emitted links, all absolute; every emitted article has source "24h.com.vn" and there are no more articles than tags |
| Scan24h.ScanSound | scraper.py:118-128 | each emitted article comes from a tag whose href contains "-c415a" and ".html" and whose title has at least 15 characters |
| Scan24h.ScanFound | scraper.py:117-129 | the recorded set after a pass is exactly the absolute links of all passing tags, duplicates included |
| Scan24h.ScanStep | scraper.py:119-129 | a further tag is emitted iff it passes and its raw href is not the absolute link of an earlier passing tag; otherwise nothing changes |
| Scan24h.AbsoluteAfterRelativeSkipped | scraper.py:122-129 | an absolute href equal to the base URL plus an earlier passing relative href is skipped |
| Scan24h.ScrapeLinks | scraper.py:110-133 | the fetcher's loop emits what Scan emits, every article with source "24h.com.vn" and a title of at least 15 characters |
| Scan24h.FoundGrows | scraper.py:129 | the found set never shrinks as more tags are read |
| Scan24h.RelativeHrefAlwaysEmitted | scraper.py:122-129 | an eligible relative href is emitted however often it was seen before, because the found set only holds absolute links |
| Scan24h.RepeatedAbsoluteHrefSkipped | scraper.py:122-129 | an eligible absolute href is skipped on every later appearance |
| Scan24h.RepeatedRelativeHrefEmittedTwice | scraper.py:122-129 | two identical eligible relative tags give two identical articles |
| Strings.StartsWith | scraper.py:126 | Python's `startswith`: the prefix is the string's first characters |
| Strings.Contains | scraper.py:122 | Python's `in` on strings: the needle occurs at some position, the empty needle everywhere |
| Triage.MatchesKeyword | scraper.py:156-157 | some keyword, lower-cased, occurs in the lower-cased title |
| Triage.Wanted | scraper.py:154-157 | an article is wanted when its link was not loaded and its title matches |
| Triage.AnyKeyword | scraper.py:156-157 | the keyword loop answers true exactly when some lower-cased keyword occurs in the lower-cased title |
| Triage.Queue | scraper.py:153-159 | the queue is never longer than the fetch list |
| Triage.QueueCount | scraper.py:153-159 | a wanted article is queued as many times as it was fetched, any other article never |
| Triage.Triage | scraper.py:150-159 | the loop saves the loaded set plus every fetched link and queues exactly Queue's articles |
| Triage.TriageStep | scraper.py:153-159 | one loop turn adds the link when it was not loaded, and queues the article when also its title matches |
| Triage.QueuedIff | scraper.py:153-159 | an article is queued iff it was fetched, its link was not loaded and its title matches a keyword |
| Triage.QueueConcat | scraper.py:153-159 | the queue keeps fetch order: filtering a concatenation concatenates the filtered parts |
| Triage.QueueAllWanted | scraper.py:153-159 | when every fetched article is wanted, the queue is the fetch list itself |
| Triage.QueueSingle | scraper.py:153-159 | a single article is queued exactly when it is wanted |
| Triage.SeenArticleIgnored | scraper.py:154 | an article whose link was loaded changes neither the queue nor the saved set, wherever it appears |
| Triage.DuplicateQueuedTwice | scraper.py:154-159 | a new matching link fetched twice is queued twice |
| Triage.RefilterQueuesNothing | scraper.py:151-155 | filtering the same articles against the saved set queues nothing |
| Triage.MatchingTitleExample | scraper.py:12 | "Nga tấn công Ukraine" matches the configured keywords |
| Triage.SportsTitleLacksGK | scraper.py:156 | "Tin tức thể thao" contains none of g, G, k, K |
| Triage.LoweredLacksGK | scraper.py:156 | a title without g, G, k, K has no g and no k once lower-cased |
| Triage.KeywordsHaveGK | scraper.py:12 | the lower-cased keywords are two, "nga" holding a g and "ukraine" a k |
| Triage.NoGKMatchesNothing | scraper.py:156-157 | two keywords holding a g and a k cannot match a title lacking both letters |
| Triage.NonMatchingTitleExample | scraper.py:12 | "Tin tức thể thao" matches neither configured keyword |
| Message.Format | scraper.py:166-171 | the message opens with the emoji and the bold source, followed by the " - Tin tức mới" header, then the title, then the link, each at a fixed offset; it ends with the italic hashtag and is 43 characters longer than its four fields |
| Message.FormatSeparators | scraper.py:168-170 | `</b>` and a blank line sit right before the link, and a blank line and `<i>` right after it; together with Format's contract this fixes every character of the message |
| Message.FormatContainsLink | scraper.py:166-171 | every message contains its article's link |
| Message.FormatDeterminesLink | scraper.py:166-171 | with source, title and hashtag fixed, the message determines the link |
| Orchestrator.Fetched | scraper.py:147 | the run's article list is the VnExpress list followed by exactly the 24h.com.vn pass's articles, each from a passing tag, and it carries every link that pass recorded |
| Orchestrator.Announce | scraper.py:166-172 | one notification announces its article, its text carries the article's link, and its send makes one to five attempts |
| Orchestrator.SentInOrder | scraper.py:165-172 | sending the reversed queue announces its articles back to front, one per queued article |
| Orchestrator.Reverse | scraper.py:165 | the send order is the queue read backwards |
| Orchestrator.Deliver | scraper.py:165-172 | one notification per article, in the given order, each with its formatted message and its own send |
| Orchestrator.PauseLog | scraper.py:172-174 | the send phase records at least one pause per notification and ends with the one-second pause |
| Orchestrator.PauseLogSingle | scraper.py:172-174 | one send contributes its retry pauses followed by a one-second pause |
| Orchestrator.PauseLogConcat | scraper.py:165-174 | the log of two stretches of sends is the first stretch's log followed by the second's |
| Orchestrator.PauseLogFirst | scraper.py:165-174 | the log opens with the first send's retry pauses and a one-second pause |
| Orchestrator.Run | scraper.py:150-176 | the saved set contains the loaded set and every fetched link and nothing else; one notification per queued article, in reverse queue order; the pause log is that of the notifications |
| Orchestrator.Cycle | scraper.py:137-176 | a state file the loader cannot take ends the run with nothing sent or saved; otherwise the saved set holds the loaded links, every VnExpress link and every recorded 24h.com.vn link, with one notification per script |
| Orchestrator.CycleSavesExactly | scraper.py:150-176 | a run that loaded its links saves exactly those, every VnExpress link and every link the 24h.com.vn pass recorded |
| Orchestrator.CycleAnnouncesQueue | scraper.py:150-174 | a run that loaded its links announces exactly the queued articles back to front, and its pause log is that of those sends |
| Orchestrator.NotifiedIff | scraper.py:153-172 | a notification goes out for an article iff it was fetched, its link is new and its title matches |
| Orchestrator.SentMessagesCarryLinks | scraper.py:166-172 | every sent message contains the link of the article it announces |
| Orchestrator.RerunIsQuiet | scraper.py:151-176 | running again on the same articles with the saved set sends nothing and saves the same set |
| Orchestrator.OldestFirst | scraper.py:161-172 | when all fetched articles are new and matching, they are announced in reverse fetch order |
| Orchestrator.NgaArticleWanted | scraper.py:153-157 | an article titled "Nga tấn công" is wanted from an empty store with keyword "nga" |
| Orchestrator.EndToEndExample | scraper.py:144-176 | that article alone yields exactly one notification, containing its link, and the saved set holds exactly that link |

## Left out

- HTTP requests (`requests.get`, `requests.post`): network I/O. Page contents
  become inputs and the replies to a send become a script of replies.
- Send scripts: `Notifier.Send` needs a reply for each of the five possible
  attempts; the model consumes only the ones the loop reaches.
- HTML parsing with BeautifulSoup and `get_text(strip=True)`: an external
  parser. The 24h.com.vn fetcher's input is the list of `<a>` tags as
  (optional `href`, stripped text) pairs, and `scrape_vnexpress` is selector
  glue whose result is an input of `Orchestrator.Fetched`.
- Exceptions inside the fetchers, after which they return the articles
  collected so far: they come from the network and the parser, both left out.
- Reading and writing the JSON state file: file I/O. `LinkStore.Load` takes
  the outcome of opening and parsing as input. The order in which the set
  is written is not modelled; `LinkStore.SaveThenLoad` covers any order.
- LinkStore.Load: non-string scalars in a stored list (numbers, booleans,
  null) are kept by the source and written back on save; the model drops
  them, since they never equal a link. JSON numbers are integers and object
  values are not represented. A file the saver wrote itself holds only strings.
- Reading `BOT_TOKEN` and `CHAT_ID` and `sys.exit(1)`: process configuration.
- `datetime.now()` and the hashtag format: the hashtag is a parameter.
- `time.sleep`: durations are recorded instead (`SendReport.pauses`,
  `Orchestrator.PauseLog`).
- `retry_after` values that are floats: JSON numbers are modelled as
  integers. A boolean is an integer in Python (`True + 1 == 2`), so `true`
  is `RetryAfter(1)` and `false` is `RetryAfter(0)`. A string, null, list or
  object makes `retry_after + 1` raise and counts as `Unreadable`.
- Strings.Lower: lowers ASCII capitals only, whereas Python's `str.lower`
  also lowers non-ASCII capitals such as Vietnamese letters with diacritics.
  The keyword test is therefore weaker for such titles.
- `print` logging.

=== FILE: link_store.dfy ===
/**
 The persisted set of processed links. The saver writes a JSON array of
 strings; the loader turns whatever JSON the file holds into a set.
 */
module LinkStore {

  /**
   A parsed JSON document, as far as `set(...)` can tell values apart. Numbers
   are integers here; the values of an object are left out, since `set` only
   keeps its keys.
   */
  datatype Json =
    | JNull
    | JBool(b: bool)
    | JNumber(n: int)
    | JString(s: string)
    | JArray(items: seq<Json>)
    | JObject(keys: seq<string>)

  /** What opening and parsing the state file gives. */
  datatype StateFile =
    | Missing             // `FileNotFoundError`
    | NotJson             // `json.JSONDecodeError`, an empty file included
    | Unopenable          // any other I/O or decoding error, e.g. no permission or non-UTF-8 bytes
    | Parsed(value: Json)

  /** The loaded links, or an exception that escapes the loader and ends the run. */
  datatype LoadResult = Loaded(links: set<string>) | Crashed

  /** `set` accepts an element only when it is hashable: not a list and not a dict. */
  predicate Hashable(j: Json)
  {
    !j.JArray? && !j.JObject?
  }

  /**
   `set(json.load(f))` after `len(...)`: only `FileNotFoundError` and
   `JSONDecodeError` are caught. `len` rejects null, booleans and numbers; `set`
   rejects a list holding a list or a dict; a string gives its characters and
   an object its keys. Non-string scalars of a list never equal a link and are
   not kept.
   */
  function Load(file: StateFile): (r: LoadResult)
    ensures file.Missing? || file.NotJson? ==> r == Loaded({})
    ensures file.Unopenable? ==> r.Crashed?
    ensures file.Parsed? && (file.value.JNull? || file.value.JBool? || file.value.JNumber?) ==> r.Crashed?
    ensures file.Parsed? && file.value.JArray? ==>
      (r.Crashed? <==> exists i :: 0 <= i < |file.value.items| && !Hashable(file.value.items[i]))
    ensures file.Parsed? && file.value.JArray? && r.Loaded? ==>
      forall x :: x in r.links <==> JString(x) in file.value.items
    ensures file.Parsed? && file.value.JString? ==>
      r.Loaded? && forall x :: x in r.links <==> |x| == 1 && x[0] in file.value.s
    ensures file.Parsed? && file.value.JObject? ==>
      r.Loaded? && forall x :: x in r.links <==> x in file.value.keys
  {
    match file
    case Missing => Loaded({})
    case NotJson => Loaded({})
    case Unopenable => Crashed
    case Parsed(value) =>
      match value
      case JArray(items) =>
        if forall i :: 0 <= i < |items| ==> Hashable(items[i]) then
          Loaded(set j | j in items && j.JString? :: j.s)
        else
          Crashed
      case JString(s) =>
        assert forall x: string {:trigger x[0]} :: |x| == 1 ==> x == [x[0]];
        Loaded(set c | c in s :: [c])
      case JObject(keys) => Loaded(set k | k in keys)
      case _ => Crashed
  }

  /** `json.dump(list(links_set), f)`: the links as a JSON array of strings, in the listing's order. */
  function Save(written: seq<string>): (doc: Json)
    ensures doc.JArray? && |doc.items| == |written|
    ensures forall i :: 0 <= i < |written| ==> doc.items[i] == JString(written[i])
  {
    if written == [] then JArray([]) else JArray([JString(written[0])] + Save(written[1..]).items)
  }

  /** Saving writes the links in some order; loading that file gives the same set back. */
  lemma SaveThenLoad(links: set<string>, written: seq<string>)
    requires forall x :: x in written <==> x in links
    ensures Load(Parsed(Save(written))) == Loaded(links)
  {
    var items := Save(written).items;
    forall x
      ensures JString(x) in items <==> x in written
    {
      if JString(x) in items {
        var i :| 0 <= i < |items| && items[i] == JString(x);
        assert written[i] == x;
      }
      if x in written {
        var i :| 0 <= i < |written| && written[i] == x;
        assert items[i] == JString(x);
      }
    }
  }

}

=== FILE: message.dfy ===
/** The notification text sent for one article. */
module Message {

  import opened Strings
  import opened News

  /** Newspaper emoji, then the bold source line. */
  const Opening := "\U{1F4F0} <b>"
  /** " - Tin tức mới" ("latest news"), closing the source line and opening the bold title. */
  const Headline := " - Tin t\U{1EE9}c m\U{1EDB}i</b>\n\n<b>"
  const AfterTitle := "</b>\n\n"
  const AfterLink := "\n\n<i>"
  const Closing := "</i>"

  /** Characters the template adds around the four fields. */
  const TemplateLength := 43

  /** Where the link starts in the message of `a`. */
  function LinkOffset(a: Article): nat
  {
    |Opening| + |a.source| + |Headline| + |a.title| + |AfterTitle|
  }

  /**
   The message for `a`, tagged with the run's `hashtag`: it opens with the
   source, carries title and link, and ends with the italic hashtag; the
   template adds a fixed number of characters.
   */
  function Format(a: Article, hashtag: string): (msg: string)
    ensures |msg| == |a.source| + |a.title| + |a.link| + |hashtag| + TemplateLength
    ensures StartsWith(msg, Opening + a.source)
    ensures OccursAt(msg, Headline, |Opening| + |a.source|)
    ensures OccursAt(msg, a.title, |Opening| + |a.source| + |Headline|)
    ensures OccursAt(msg, a.link, LinkOffset(a))
    ensures EndsWith(msg, "<i>" + hashtag + Closing)
  {
    var msg := Opening + a.source + Headline + a.title + AfterTitle + a.link + AfterLink + hashtag + Closing;
    assert msg[..|Opening + a.source|] == Opening + a.source;
    assert msg[|Opening| + |a.source|..|Opening| + |a.source| + |Headline|] == Headline;
    assert msg[|Opening| + |a.source| + |Headline|..|Opening| + |a.source| + |Headline| + |a.title|] == a.title;
    assert msg[LinkOffset(a)..LinkOffset(a) + |a.link|] == a.link;
    assert msg[|msg| - |"<i>" + hashtag + Closing|..] == "<i>" + hashtag + Closing;
    msg
  }

  /**
   The separators around the link: `</b>` and a blank line close the title
   right before it, and a blank line and `<i>` follow it. With `Format`'s own
   contract this fixes every character of the message.
   */
  lemma FormatSeparators(a: Article, hashtag: string)
    ensures OccursAt(Format(a, hashtag), AfterTitle, LinkOffset(a) - |AfterTitle|)
    ensures OccursAt(Format(a, hashtag), AfterLink, LinkOffset(a) + |a.link|)
  {
    var msg := Format(a, hashtag);
    assert msg == Opening + a.source + Headline + a.title + AfterTitle + a.link + AfterLink + hashtag + Closing;
    assert msg[LinkOffset(a) - |AfterTitle|..LinkOffset(a)] == AfterTitle;
    assert msg[LinkOffset(a) + |a.link|..LinkOffset(a) + |a.link| + |AfterLink|] == AfterLink;
  }

  /** Every message carries its article's link. */
  lemma FormatContainsLink(a: Article, hashtag: string)
    ensures Contains(Format(a, hashtag), a.link)
  {
    assert OccursAt(Format(a, hashtag), a.link, LinkOffset(a));
  }

  /**
   For a fixed source, title and hashtag, different links give different
   messages: the link can be read back from the message.
   */
  lemma FormatDeterminesLink(a: Article, b: Article, hashtag: string)
    requires a.source == b.source && a.title == b.title
    requires Format(a, hashtag) == Format(b, hashtag)
    ensures a.link == b.link
  {
    var m := Format(a, hashtag);
    assert |a.link| == |b.link|;
    assert LinkOffset(a) == LinkOffset(b);
    assert a.link == m[LinkOffset(a)..LinkOffset(a) + |a.link|] == b.link;
  }

}

=== FILE: news.dfy ===
/** The record every fetcher produces and the orchestrator consumes. */
module News {

  /** One article as found on a listing page; `link` is its identity. */
  datatype Article = Article(title: string, link: string, source: string)

  /** The links of a list of articles. */
  function Links(articles: seq<Article>): set<string>
  {
    set a | a in articles :: a.link
  }

  /** A link is in the set exactly when some article of the list carries it. */
  lemma LinksMembers(articles: seq<Article>)
    ensures forall i :: 0 <= i < |articles| ==> articles[i].link in Links(articles)
    ensures forall x :: x in Links(articles) ==> exists i :: 0 <= i < |articles| && articles[i].link == x
  {
    forall i | 0 <= i < |articles|
      ensures articles[i].link in Links(articles)
    {
      assert articles[i] in articles;
    }
  }

  lemma LinksAppend(articles: seq<Article>, a: Article)
    ensures Links(articles + [a]) == Links(articles) + {a.link}
  {
    assert forall b :: b in articles + [a] <==> b in articles || b == a;
  }

  lemma LinksConcat(s: seq<Article>, t: seq<Article>)
    ensures Links(s + t) == Links(s) + Links(t)
  {
    assert forall b :: b in s + t <==> b in s || b in t;
  }

}

=== FILE: notifier.dfy ===
/**
 The Telegram send loop: up to five POST attempts, retrying after a rate limit
 (HTTP 429) or a transport exception and giving up at once on any other status.

 The network is replaced by a script of replies, one per attempt, and every
 `time.sleep` becomes an entry of the report's `pauses` instead of a delay.
 */
module Notifier {

  const MaxAttempts: nat := 5
  const StatusOk := 200
  const StatusTooManyRequests := 429
  /** Seconds assumed when a 429 body carries no `parameters.retry_after`. */
  const DefaultRetryAfter: nat := 5
  /** Seconds slept in the exception handler. */
  const ExceptionPause: nat := 5

  /** What the JSON body of a 429 reply says about `parameters.retry_after`. */
  datatype RetryHint =
    | NoHint                    // readable body without the field
    | RetryAfter(seconds: int)  // readable body with an integer delay
    | Unreadable                // `response.json()` or `.get` raises, or `retry_after + 1` does (a string, null, list or object)

  /** The outcome of one `requests.post`. */
  datatype Reply =
    | Response(status: int, hint: RetryHint)
    | Raised

  /** How a send ended: acknowledged, refused with a status, or out of attempts. */
  datatype Verdict = Delivered | Refused(status: int) | GaveUp

  /** Attempts made, seconds slept between them in order, and how the send ended. */
  datatype SendReport = SendReport(attempts: nat, pauses: seq<nat>, verdict: Verdict)

  /** The loop goes round again after this reply. */
  predicate Retries(r: Reply)
  {
    r.Raised? || r.status == StatusTooManyRequests
  }

  /**
   The longest sleep `time.sleep` accepts, in whole seconds: it counts in
   signed 64-bit nanoseconds and raises `OverflowError` beyond that.
   */
  const MaxSleepSeconds: nat := 9223372036

  /**
   Seconds slept after a reply that asks for a retry. A 429 whose body cannot
   be read, or whose delay `time.sleep` rejects as negative or too long, raises
   inside the `try` and so falls into the exception handler's pause.
   */
  function Pause(r: Reply): (p: nat)
    requires Retries(r)
    ensures p <= MaxSleepSeconds
    ensures r.Raised? ==> p == ExceptionPause
    ensures r.Response? && r.hint.NoHint? ==> p == DefaultRetryAfter + 1
    ensures r.Response? && r.hint.Unreadable? ==> p == ExceptionPause
    ensures r.Response? && r.hint.RetryAfter? ==>
      p == if 0 <= r.hint.seconds + 1 <= MaxSleepSeconds then r.hint.seconds + 1 else ExceptionPause
  {
    match r
    case Raised => ExceptionPause
    case Response(_, hint) =>
      match hint
      case NoHint => DefaultRetryAfter + 1
      case RetryAfter(n) => if 0 <= n + 1 <= MaxSleepSeconds then n + 1 else ExceptionPause
      case Unreadable => ExceptionPause
  }

  /** How the send ends on a reply that stops the loop. */
  function VerdictOf(r: Reply): Verdict
    requires !Retries(r)
  {
    if r.status == StatusOk then Delivered else Refused(r.status)
  }

  /** The loop from attempt index `i` on, `replies[k]` answering attempt `k`. */
  function SendFrom(replies: seq<Reply>, i: nat): (rep: SendReport)
    requires i <= MaxAttempts <= |replies|
    ensures i <= rep.attempts <= MaxAttempts
    decreases MaxAttempts - i
  {
    if i == MaxAttempts then
      SendReport(MaxAttempts, [], GaveUp)
    else if Retries(replies[i]) then
      var rest := SendFrom(replies, i + 1);
      rest.(pauses := [Pause(replies[i])] + rest.pauses)
    else
      SendReport(i + 1, [], VerdictOf(replies[i]))
  }

  /** One call of the send routine, making between one and five attempts. */
  function Send(replies: seq<Reply>): (rep: SendReport)
    requires MaxAttempts <= |replies|
    ensures 1 <= rep.attempts <= MaxAttempts
  {
    SendFrom(replies, 0)
  }

  /**
   What the loop does from attempt `i` on: every attempt but the last asked for
   a retry and left one pause; the last attempt's reply decides the verdict,
   unless the budget ran out, in which case that attempt paused too.
   */
  lemma {:induction false} SendFromSpec(replies: seq<Reply>, i: nat)
    requires i <= MaxAttempts <= |replies|
    ensures var rep := SendFrom(replies, i);
      && (rep.verdict == GaveUp ==>
            rep.attempts == MaxAttempts && |rep.pauses| == MaxAttempts - i)
      && (rep.verdict != GaveUp ==>
            && i < rep.attempts
            && |rep.pauses| == rep.attempts - 1 - i
            && !Retries(replies[rep.attempts - 1])
            && rep.verdict == VerdictOf(replies[rep.attempts - 1]))
      && (forall k :: 0 <= k < |rep.pauses| ==>
            Retries(replies[i + k]) && rep.pauses[k] == Pause(replies[i + k]))
    decreases MaxAttempts - i
  {
    if i < MaxAttempts && Retries(replies[i]) {
      SendFromSpec(replies, i + 1);
      var rest := SendFrom(replies, i + 1);
      var rep := SendFrom(replies, i);
      assert rep == rest.(pauses := [Pause(replies[i])] + rest.pauses);
      assert forall k :: 1 <= k < |rep.pauses| ==> rep.pauses[k] == rest.pauses[k - 1];
    }
  }

  /**
   The whole send: every attempt but the last was answered with a retry, the
   last decides the verdict unless all five asked for a retry, and one pause
   is recorded per retrying attempt — the fifth included, before giving up.
   */
  lemma SendSpec(replies: seq<Reply>)
    requires MaxAttempts <= |replies|
    ensures var rep := Send(replies);
      && (rep.verdict == GaveUp ==>
            rep.attempts == MaxAttempts && |rep.pauses| == MaxAttempts)
      && (rep.verdict != GaveUp ==>
            && |rep.pauses| == rep.attempts - 1
            && !Retries(replies[rep.attempts - 1])
            && rep.verdict == VerdictOf(replies[rep.attempts - 1]))
      && (forall k :: 0 <= k < |rep.pauses| ==>
            Retries(replies[k]) && rep.pauses[k] == Pause(replies[k]))
  {
    SendFromSpec(replies, 0);
  }

  /** Every attempt before `n` asked for a retry. */
  ghost predicate RetriedBefore(replies: seq<Reply>, n: nat)
    requires n <= |replies|
  {
    forall k :: 0 <= k < n ==> Retries(replies[k])
  }

  /**
   The attempt count is fixed by the script alone: the send stops right after
   the first reply that does not ask for a retry, or after five attempts.
   */
  lemma AttemptsAreFirstStop(replies: seq<Reply>, n: nat)
    requires MaxAttempts <= |replies|
    requires 1 <= n <= MaxAttempts
    requires RetriedBefore(replies, n - 1)
    requires !Retries(replies[n - 1]) || n == MaxAttempts
    ensures Send(replies).attempts == n
  {
    SendSpec(replies);
  }

  /** A 200 on the first attempt ends the send with no pause. */
  lemma FirstTimeSuccess(replies: seq<Reply>)
    requires MaxAttempts <= |replies|
    requires replies[0].Response? && replies[0].status == StatusOk
    ensures Send(replies) == SendReport(1, [], Delivered)
  {
    SendSpec(replies);
  }

  /** Any status other than 200 and 429 ends the send at once, unretried. */
  lemma OtherStatusNotRetried(replies: seq<Reply>, code: int)
    requires MaxAttempts <= |replies|
    requires code != StatusOk && code != StatusTooManyRequests
    requires replies[0].Response? && replies[0].status == code
    ensures Send(replies) == SendReport(1, [], Refused(code))
  {
    SendSpec(replies);
  }

  /** One rate limit followed by a success: two attempts, one pause of `retry_after + 1`. */
  lemma RateLimitThenSuccess(replies: seq<Reply>, delay: nat)
    requires MaxAttempts <= |replies|
    requires delay + 1 <= MaxSleepSeconds
    requires replies[0] == Response(StatusTooManyRequests, RetryAfter(delay))
    requires replies[1].Response? && replies[1].status == StatusOk
    ensures Send(replies) == SendReport(2, [delay + 1], Delivered)
  {
    AttemptsAreFirstStop(replies, 2);
  }

  /**
   A 429 asking for a delay `time.sleep` cannot take, negative or beyond its
   range, makes the sleep raise; the handler then pauses five seconds.
   */
  lemma UnsleepableDelayPausesFive(replies: seq<Reply>, delay: int)
    requires MaxAttempts <= |replies|
    requires replies[0] == Response(StatusTooManyRequests, RetryAfter(delay))
    requires delay + 1 < 0 || delay + 1 > MaxSleepSeconds
    ensures Send(replies).pauses[0] == ExceptionPause
    ensures Send(replies).attempts >= 2
  {
    SendSpec(replies);
  }

  /** A 429 whose body cannot be read falls into the exception handler: a five-second pause, then another attempt. */
  lemma UnreadableBodyPausesFive(replies: seq<Reply>)
    requires MaxAttempts <= |replies|
    requires replies[0] == Response(StatusTooManyRequests, Unreadable)
    ensures Send(replies).pauses[0] == ExceptionPause
    ensures Send(replies).attempts >= 2
  {
    SendSpec(replies);
  }

  /** A 429 without a suggested delay pauses six seconds. */
  lemma MissingHintPausesSix(replies: seq<Reply>)
    requires MaxAttempts <= |replies|
    requires replies[0] == Response(StatusTooManyRequests, NoHint)
    ensures Send(replies).pauses[0] == 6
  {
    SendSpec(replies);
  }

  /**
   Five retrying replies exhaust the budget: exactly five attempts, a pause
   after each of them (the fifth included), and no delivery.
   */
  lemma Exhaustion(replies: seq<Reply>)
    requires MaxAttempts <= |replies|
    requires RetriedBefore(replies, MaxAttempts)
    ensures Send(replies).attempts == MaxAttempts
    ensures Send(replies).verdict == GaveUp
    ensures |Send(replies).pauses| == MaxAttempts
  {
    AttemptsAreFirstStop(replies, MaxAttempts);
  }

}

=== FILE: orchestrator.dfy ===
/**
 One run: fetch, filter against the loaded links, notify the queued articles
 oldest first, and save the grown link set. Sending is scripted per message;
 the clock only supplies the hashtag, which is a parameter here.
 */
module Orchestrator {

  import opened Wrappers
  import opened Strings
  import opened News
  import opened LinkStore
  import opened Notifier
  import opened Scan24h
  import opened Triage
  import opened Message

  /** One notification: the article, its message, and how sending it went. */
  datatype Delivery = Delivery(article: Article, text: string, report: SendReport)

  /** What a run leaves behind: the links to save, the notifications made in order, and every pause of the send phase. */
  datatype RunResult = RunResult(saved: set<string>, sent: seq<Delivery>, pauses: seq<nat>)

  /** All articles of a run: the VnExpress ones, then those of 24h.com.vn. */
  function Fetched(vnexpress: seq<Article>, anchors: seq<Anchor>): (all: seq<Article>)
    ensures |all| == |vnexpress| + |Scan(anchors).articles|
    ensures all[..|vnexpress|] == vnexpress
    ensures all[|vnexpress|..] == Scan(anchors).articles
    ensures forall i :: |vnexpress| <= i < |all| ==>
      all[i].source == SourceName && FromEligibleTag(anchors, all[i])
    ensures Scan(anchors).found <= Links(all)
  {
    var found := Scan(anchors).articles;
    ScanSound(anchors);
    LinksConcat(vnexpress, found);
    assert forall i :: 0 <= i < |found| ==> found[i].source == SourceName;
    vnexpress + found
  }

  /** Every send has a script of at least five replies. */
  predicate Scripted(scripts: seq<seq<Reply>>)
  {
    forall j :: 0 <= j < |scripts| ==> MaxAttempts <= |scripts[j]|
  }

  /** Formats the message for `a` and sends it against `script`. */
  function Announce(a: Article, hashtag: string, script: seq<Reply>): (d: Delivery)
    requires MaxAttempts <= |script|
    ensures d.article == a && Contains(d.text, a.link)
    ensures 1 <= d.report.attempts <= MaxAttempts
  {
    FormatContainsLink(a, hashtag);
    Delivery(a, Format(a, hashtag), Send(script))
  }

  /** `reversed(queue)`: the send loop starts from the queue's last article. */
  function Reverse(queue: seq<Article>): (order: seq<Article>)
    ensures |order| == |queue|
    ensures forall j :: 0 <= j < |order| ==> order[j] == queue[|queue| - 1 - j]
  {
    if queue == [] then [] else [queue[|queue| - 1]] + Reverse(queue[..|queue| - 1])
  }

  /** The send loop: one notification per article of `order`, in that order, `scripts[j]` answering the j-th. */
  function Deliver(order: seq<Article>, hashtag: string, scripts: seq<seq<Reply>>): (ds: seq<Delivery>)
    requires |scripts| == |order| && Scripted(scripts)
    ensures |ds| == |order|
    ensures forall j :: 0 <= j < |ds| ==> ds[j] == Announce(order[j], hashtag, scripts[j])
  {
    if order == [] then
      []
    else
      var rest := Deliver(order[1..], hashtag, scripts[1..]);
      var ds := [Announce(order[0], hashtag, scripts[0])] + rest;
      assert forall j :: 1 <= j < |ds| ==> ds[j] == rest[j - 1];
      ds
  }

  /** The courtesy pause after every send, whatever its outcome. */
  const PacingSeconds: nat := 1

  /**
   Every pause of the send phase in order: each send's own retry pauses, then
   the courtesy pause. There is one courtesy pause per notification.
   */
  function PauseLog(ds: seq<Delivery>): (log: seq<nat>)
    ensures |log| >= |ds|
    ensures ds != [] ==> log[|log| - 1] == PacingSeconds
  {
    if ds == [] then [] else ds[0].report.pauses + [PacingSeconds] + PauseLog(ds[1..])
  }

  /** A single send contributes its retry pauses followed by the courtesy pause. */
  lemma PauseLogSingle(d: Delivery)
    ensures PauseLog([d]) == d.report.pauses + [PacingSeconds]
  {
    assert [d][1..] == [];
  }

  /** The log of two stretches of sends is the first stretch's log followed by the second's. */
  lemma {:induction false} PauseLogConcat(a: seq<Delivery>, b: seq<Delivery>)
    ensures PauseLog(a + b) == PauseLog(a) + PauseLog(b)
    decreases |a|
  {
    if a == [] {
      assert a + b == b;
    } else {
      assert (a + b)[0] == a[0];
      assert (a + b)[1..] == a[1..] + b;
      PauseLogConcat(a[1..], b);
    }
  }

  /** The log opens with the first send's retry pauses and its courtesy pause. */
  lemma PauseLogFirst(ds: seq<Delivery>)
    requires ds != []
    ensures |ds[0].report.pauses| < |PauseLog(ds)|
    ensures PauseLog(ds)[..|ds[0].report.pauses| + 1] == ds[0].report.pauses + [PacingSeconds]
  {
    var block := ds[0].report.pauses + [PacingSeconds];
    assert PauseLog(ds) == block + PauseLog(ds[1..]);
    assert (block + PauseLog(ds[1..]))[..|block|] == block;
  }

  /** Sending the reversed queue announces its articles back to front. */
  lemma SentInOrder(q: seq<Article>, hashtag: string, scripts: seq<seq<Reply>>)
    requires |scripts| == |q| && Scripted(scripts)
    ensures |Deliver(Reverse(q), hashtag, scripts)| == |q|
    ensures forall j :: 0 <= j < |q| ==> Deliver(Reverse(q), hashtag, scripts)[j].article == q[|q| - 1 - j]
  {
    var order := Reverse(q);
    var ds := Deliver(order, hashtag, scripts);
    forall j | 0 <= j < |q|
      ensures ds[j].article == q[|q| - 1 - j]
    {
      assert ds[j] == Announce(order[j], hashtag, scripts[j]);
    }
  }

  /**
   One run. The saved set is the loaded set plus every fetched link, matching
   or not; one notification is made per queued article, none if none is queued.
   */
  function Run(loaded: set<string>, keywords: seq<string>, fetched: seq<Article>, hashtag: string,
               scripts: seq<seq<Reply>>): (r: RunResult)
    requires |scripts| == |Queue(loaded, keywords, fetched)| && Scripted(scripts)
    ensures loaded <= r.saved
    ensures forall i :: 0 <= i < |fetched| ==> fetched[i].link in r.saved
    ensures forall x :: x in r.saved ==> x in loaded || exists i :: 0 <= i < |fetched| && fetched[i].link == x
    ensures |r.sent| == |Queue(loaded, keywords, fetched)|
    ensures forall j :: 0 <= j < |r.sent| ==>
      r.sent[j].article == Queue(loaded, keywords, fetched)[|r.sent| - 1 - j]
    ensures r.pauses == PauseLog(r.sent)
  {
    var sent := Deliver(Reverse(Queue(loaded, keywords, fetched)), hashtag, scripts);
    LinksMembers(fetched);
    SentInOrder(Queue(loaded, keywords, fetched), hashtag, scripts);
    RunResult(loaded + Links(fetched), sent, PauseLog(sent))
  }

  /**
   `main`: load the processed links, fetch, filter, send and save. A state
   file the loader cannot turn into a set raises before anything is fetched,
   sent or saved.
   */
  function Cycle(file: StateFile, keywords: seq<string>, vnexpress: seq<Article>, anchors: seq<Anchor>,
                 hashtag: string, scripts: seq<seq<Reply>>): (r: Option<RunResult>)
    requires Load(file).Loaded? ==>
      |scripts| == |Queue(Load(file).links, keywords, Fetched(vnexpress, anchors))| && Scripted(scripts)
    ensures r.None? <==> Load(file).Crashed?
    ensures r.Some? ==> Load(file).links <= r.value.saved
    ensures r.Some? ==> Links(vnexpress) <= r.value.saved && Scan(anchors).found <= r.value.saved
    ensures r.Some? ==> |r.value.sent| == |scripts| && |r.value.pauses| >= |scripts|
  {
    match Load(file)
    case Crashed => None
    case Loaded(links) =>
      var fetched := Fetched(vnexpress, anchors);
      LinksConcat(vnexpress, Scan(anchors).articles);
      Some(Run(links, keywords, fetched, hashtag, scripts))
  }

  /**
   A run that loaded its links saves exactly those, every VnExpress link and
   every link the 24h.com.vn pass recorded.
   */
  lemma CycleSavesExactly(file: StateFile, keywords: seq<string>, vnexpress: seq<Article>, anchors: seq<Anchor>,
                          hashtag: string, scripts: seq<seq<Reply>>)
    requires Load(file).Loaded? ==>
      |scripts| == |Queue(Load(file).links, keywords, Fetched(vnexpress, anchors))| && Scripted(scripts)
    ensures Load(file).Loaded? ==>
      Cycle(file, keywords, vnexpress, anchors, hashtag, scripts).value.saved ==
        Load(file).links + Links(vnexpress) + Scan(anchors).found
  {
    if Load(file).Loaded? {
      var fetched := Fetched(vnexpress, anchors);
      var run := Run(Load(file).links, keywords, fetched, hashtag, scripts);
      assert Cycle(file, keywords, vnexpress, anchors, hashtag, scripts) == Some(run);
      assert fetched == vnexpress + Scan(anchors).articles;
      LinksConcat(vnexpress, Scan(anchors).articles);
      assert run.saved == Load(file).links + Links(fetched);
    }
  }

  /**
   A run that loaded its links announces exactly the queued articles, back to
   front, and its pause log is that of those sends.
   */
  lemma CycleAnnouncesQueue(file: StateFile, keywords: seq<string>, vnexpress: seq<Article>, anchors: seq<Anchor>,
                            hashtag: string, scripts: seq<seq<Reply>>)
    requires Load(file).Loaded? ==>
      |scripts| == |Queue(Load(file).links, keywords, Fetched(vnexpress, anchors))| && Scripted(scripts)
    ensures Load(file).Loaded? ==>
      var r := Cycle(file, keywords, vnexpress, anchors, hashtag, scripts).value;
      var q := Queue(Load(file).links, keywords, Fetched(vnexpress, anchors));
      && |r.sent| == |q|
      && (forall j :: 0 <= j < |r.sent| ==> r.sent[j].article == q[|q| - 1 - j])
      && r.pauses == PauseLog(r.sent)
  {
    if Load(file).Loaded? {
      var fetched := Fetched(vnexpress, anchors);
      var run := Run(Load(file).links, keywords, fetched, hashtag, scripts);
      assert Cycle(file, keywords, vnexpress, anchors, hashtag, scripts) == Some(run);
    }
  }

  /** A notification goes out for `a` exactly when `a` was fetched, its link is new and its title matches. */
  lemma NotifiedIff(loaded: set<string>, keywords: seq<string>, fetched: seq<Article>, hashtag: string,
                    scripts: seq<seq<Reply>>, a: Article)
    requires |scripts| == |Queue(loaded, keywords, fetched)| && Scripted(scripts)
    ensures (exists j :: 0 <= j < |Run(loaded, keywords, fetched, hashtag, scripts).sent|
               && Run(loaded, keywords, fetched, hashtag, scripts).sent[j].article == a)
            <==> a in fetched && Wanted(loaded, keywords, a)
  {
    var q := Queue(loaded, keywords, fetched);
    SentInReverse(Run(loaded, keywords, fetched, hashtag, scripts).sent, q, a);
    QueuedIff(loaded, keywords, fetched, a);
  }

  /** When the sends announce the queue back to front, an article is announced iff it is queued. */
  lemma SentInReverse(sent: seq<Delivery>, q: seq<Article>, a: Article)
    requires |sent| == |q|
    requires forall j :: 0 <= j < |sent| ==> sent[j].article == q[|q| - 1 - j]
    ensures (exists j :: 0 <= j < |sent| && sent[j].article == a) <==> a in q
  {
    if a in q {
      var i :| 0 <= i < |q| && q[i] == a;
      assert sent[|q| - 1 - i].article == a;
    }
    if exists j :: 0 <= j < |sent| && sent[j].article == a {
      var j :| 0 <= j < |sent| && sent[j].article == a;
      assert q[|q| - 1 - j] in q;
    }
  }

  /** Every message of a run carries the link of the article it announces. */
  lemma SentMessagesCarryLinks(loaded: set<string>, keywords: seq<string>, fetched: seq<Article>, hashtag: string,
                               scripts: seq<seq<Reply>>, j: nat)
    requires |scripts| == |Queue(loaded, keywords, fetched)| && Scripted(scripts)
    requires j < |Run(loaded, keywords, fetched, hashtag, scripts).sent|
    ensures Contains(Run(loaded, keywords, fetched, hashtag, scripts).sent[j].text,
                     Run(loaded, keywords, fetched, hashtag, scripts).sent[j].article.link)
  {
    var d := Run(loaded, keywords, fetched, hashtag, scripts).sent[j];
    FormatContainsLink(d.article, hashtag);
  }

  /** Running again on the same articles with the saved links notifies nothing and saves the same set. */
  lemma RerunIsQuiet(loaded: set<string>, keywords: seq<string>, fetched: seq<Article>, hashtag: string,
                     scripts: seq<seq<Reply>>)
    requires |scripts| == |Queue(loaded, keywords, fetched)| && Scripted(scripts)
    ensures |Queue(Run(loaded, keywords, fetched, hashtag, scripts).saved, keywords, fetched)| == 0
    ensures Run(Run(loaded, keywords, fetched, hashtag, scripts).saved, keywords, fetched, hashtag, []) ==
            RunResult(Run(loaded, keywords, fetched, hashtag, scripts).saved, [], [])
  {
    RefilterQueuesNothing(loaded, keywords, fetched);
  }

  /**
   When every fetched article is new and matching — e.g. A, B, C in fetch
   order — the notifications go out as C, B, A. On a page that lists the
   newest article first, this is oldest first.
   */
  lemma OldestFirst(loaded: set<string>, keywords: seq<string>, fetched: seq<Article>, hashtag: string,
                    scripts: seq<seq<Reply>>)
    requires forall i :: 0 <= i < |fetched| ==> Wanted(loaded, keywords, fetched[i])
    requires |scripts| == |fetched| && Scripted(scripts)
    ensures Queue(loaded, keywords, fetched) == fetched
    ensures forall j :: 0 <= j < |fetched| ==>
      Run(loaded, keywords, fetched, hashtag, scripts).sent[j].article == fetched[|fetched| - 1 - j]
  {
    QueueAllWanted(loaded, keywords, fetched);
    assert |Run(loaded, keywords, fetched, hashtag, scripts).sent| == |fetched|;
  }

  /**
   The article of the end-to-end example is new and matches "nga".
   The literal comes in through `requires` so that the solver unfolds
   `Lower` on it only where this proof needs it.
   */
  lemma NgaArticleWanted(a: Article, keywords: seq<string>)
    requires a.title == "Nga t\U{1EA5}n c\U{00F4}ng" && keywords == ["nga"]
    ensures Wanted({}, keywords, a)
  {
    var lowered := Lower(a.title);
    var nga := Lower(keywords[0]);
    assert nga[0] == 'n' && nga[1] == 'g' && nga[2] == 'a';
    assert lowered[0] == 'n' && lowered[1] == 'g' && lowered[2] == 'a';
    assert lowered[0..3] == nga;
    assert OccursAt(lowered, nga, 0);
  }

  /**
   From no saved links, one fetched article titled "Nga tấn công" with the
   keyword "nga" gives exactly one notification carrying its link, and saves
   exactly that link. The literals come in through `requires`, as above.
   */
  lemma EndToEndExample(a: Article, keywords: seq<string>, hashtag: string, script: seq<Reply>)
    requires a.title == "Nga t\U{1EA5}n c\U{00F4}ng" && a.link == "https://x/1" && a.source == "S"
    requires keywords == ["nga"]
    requires MaxAttempts <= |script|
    ensures Queue({}, keywords, [a]) == [a]
    ensures |Run({}, keywords, [a], hashtag, [script]).sent| == 1
    ensures Run({}, keywords, [a], hashtag, [script]).sent[0].article == a
    ensures Contains(Run({}, keywords, [a], hashtag, [script]).sent[0].text, a.link)
    ensures Run({}, keywords, [a], hashtag, [script]).saved == {a.link}
  {
    NgaArticleWanted(a, keywords);
    QueueSingle({}, keywords, a);
    var r := Run({}, keywords, [a], hashtag, [script]);
    assert r.sent[0].text == Format(a, hashtag);
    FormatContainsLink(a, hashtag);
    assert Links([a]) == {a.link} by {
      assert forall b :: b in [a] <==> b == a;
    }
  }

}

=== FILE: scan24h.dfy ===
/**
 The link filter of the 24h.com.vn fetcher. HTML parsing is left out: the
 input is every `<a>` tag of the listing page in document order, as its
 optional `href` and its stripped text.
 */
module Scan24h {

  import opened Wrappers
  import opened Strings
  import opened News

  const BaseUrl := "https://www.24h.com.vn"
  const SourceName := "24h.com.vn"
  /** Path marker of the international-news section. */
  const SectionMarker := "-c415a"
  const PageSuffix := ".html"
  /** Shorter titles are navigation links, not headlines. */
  const MinTitleLength := 15

  /** One `<a>` tag: its `href` attribute, if any, and `get_text(strip=True)`. */
  datatype Anchor = Anchor(href: Option<string>, text: string)

  /** Relative links are made absolute by prefixing the site's base URL. */
  function Absolute(href: string): (link: string)
    ensures StartsWith(link, "http")
    ensures EndsWith(link, href)
    ensures StartsWith(href, "http") <==> link == href
    ensures !StartsWith(href, "http") ==> link == BaseUrl + href
  {
    if StartsWith(href, "http") then href else BaseUrl + href
  }

  /**
   The content filters on one tag, before the duplicate check. An empty title
   is already shorter than the minimum, so no separate emptiness test is needed.
   */
  predicate Eligible(a: Anchor)
  {
    && a.href.Some?
    && Contains(a.href.value, SectionMarker)
    && Contains(a.href.value, PageSuffix)
    && |a.text| >= MinTitleLength
  }

  /** The article of a tag: its stripped text as title, its absolute link, and the site as source. */
  function ArticleOf(a: Anchor): (r: Article)
    requires a.href.Some?
    ensures r.title == a.text && r.source == SourceName
    ensures StartsWith(r.link, "http") && EndsWith(r.link, a.href.value)
  {
    Article(a.text, Absolute(a.href.value), SourceName)
  }

  /** The articles emitted so far and the set of links recorded as found. */
  datatype ScanState = ScanState(articles: seq<Article>, found: set<string>)

  /**
   One tag. The duplicate check looks up the raw `href`, but what is recorded
   is the absolute link.
   */
  function Step(st: ScanState, a: Anchor): ScanState
  {
    if Eligible(a) && a.href.value !in st.found then
      ScanState(st.articles + [ArticleOf(a)], st.found + {ArticleOf(a).link})
    else
      st
  }

  /**
   All tags in document order. The found set is exactly the links emitted,
   and all of them are absolute.
   */
  function Scan(anchors: seq<Anchor>): (st: ScanState)
    ensures st.found == Links(st.articles)
    ensures forall x :: x in st.found ==> StartsWith(x, "http")
    ensures |st.articles| <= |anchors|
    ensures forall i :: 0 <= i < |st.articles| ==> st.articles[i].source == SourceName
  {
    if anchors == [] then
      ScanState([], {})
    else
      var before := Scan(anchors[..|anchors| - 1]);
      var last := anchors[|anchors| - 1];
      if Eligible(last) && last.href.value !in before.found then
        LinksAppend(before.articles, ArticleOf(last));
        Step(before, last)
      else
        Step(before, last)
  }

  /** `x` is the article of some tag in `anchors` that passes the content filters. */
  predicate FromEligibleTag(anchors: seq<Anchor>, x: Article)
  {
    exists k :: 0 <= k < |anchors| && Eligible(anchors[k]) && x == ArticleOf(anchors[k])
  }

  /** Each emitted article comes from a tag that passes the content filters. */
  lemma {:induction false} ScanSound(anchors: seq<Anchor>)
    ensures forall i :: 0 <= i < |Scan(anchors).articles| ==> FromEligibleTag(anchors, Scan(anchors).articles[i])
    decreases |anchors|
  {
    if anchors != [] {
      var prefix := anchors[..|anchors| - 1];
      var last := anchors[|anchors| - 1];
      ScanSound(prefix);
      var before := Scan(prefix);
      var after := Scan(anchors).articles;
      assert Scan(anchors) == Step(before, last);
      forall i | 0 <= i < |after|
        ensures FromEligibleTag(anchors, after[i])
      {
        if i < |before.articles| {
          assert after[i] == before.articles[i];
          assert FromEligibleTag(prefix, before.articles[i]);
          var k :| 0 <= k < |prefix| && Eligible(prefix[k]) && before.articles[i] == ArticleOf(prefix[k]);
          assert prefix[k] == anchors[k];
        } else {
          assert after[i] == ArticleOf(last);
          assert anchors[|anchors| - 1] == last;
        }
      }
    }
  }

  /** The fetcher's loop over the tags, with its growing found set. */
  method ScrapeLinks(anchors: seq<Anchor>) returns (articles: seq<Article>)
    ensures articles == Scan(anchors).articles
    ensures forall i :: 0 <= i < |articles| ==>
      articles[i].source == SourceName && |articles[i].title| >= MinTitleLength
  {
    articles := [];
    var found: set<string> := {};
    for n := 0 to |anchors|
      invariant ScanState(articles, found) == Scan(anchors[..n])
      invariant forall i :: 0 <= i < |articles| ==>
        articles[i].source == SourceName && |articles[i].title| >= MinTitleLength
    {
      assert anchors[..n + 1][..n] == anchors[..n];
      var a := anchors[n];
      assert Scan(anchors[..n + 1]) == Step(Scan(anchors[..n]), a);
      if a.href.None? {
        continue;
      }
      var link := a.href.value;
      if Contains(link, SectionMarker) && Contains(link, PageSuffix) && link !in found {
        var title := a.text;
        if |title| < MinTitleLength {
          continue;
        }
        if !StartsWith(link, "http") {
          link := BaseUrl + link;
        }
        assert Article(title, link, SourceName) == ArticleOf(a);
        articles := articles + [Article(title, link, SourceName)];
        found := found + {link};
      }
    }
    assert anchors[..|anchors|] == anchors;
  }

  lemma ScanSnoc(anchors: seq<Anchor>, a: Anchor)
    ensures Scan(anchors + [a]) == Step(Scan(anchors), a)
  {
    assert (anchors + [a])[..|anchors|] == anchors;
  }

  /** The absolute links of every tag that passes the content filters, duplicates or not. */
  function EligibleLinks(anchors: seq<Anchor>): set<string>
  {
    set k | 0 <= k < |anchors| && Eligible(anchors[k]) :: Absolute(anchors[k].href.value)
  }

  lemma EligibleLinksSnoc(anchors: seq<Anchor>, a: Anchor)
    ensures EligibleLinks(anchors + [a]) ==
      if Eligible(a) then EligibleLinks(anchors) + {Absolute(a.href.value)} else EligibleLinks(anchors)
  {
    var s := anchors + [a];
    assert forall k :: 0 <= k < |anchors| ==> s[k] == anchors[k];
    assert s[|anchors|] == a;
  }

  /**
   The found set after a pass is the absolute link of every eligible tag: a
   tag skipped as a duplicate had a raw `href` already found, and such an
   `href` is absolute, so it is its own normalised link.
   */
  lemma {:induction false} ScanFound(anchors: seq<Anchor>)
    ensures Scan(anchors).found == EligibleLinks(anchors)
    decreases |anchors|
  {
    if anchors != [] {
      var prefix := anchors[..|anchors| - 1];
      var last := anchors[|anchors| - 1];
      assert anchors == prefix + [last];
      ScanFound(prefix);
      ScanSnoc(prefix, last);
      EligibleLinksSnoc(prefix, last);
      if Eligible(last) && last.href.value in Scan(prefix).found {
        assert StartsWith(last.href.value, "http");
      }
    } else {
      assert EligibleLinks(anchors) == {};
    }
  }

  /**
   One more tag: it is emitted exactly when it passes the content filters and
   its raw `href` is not the absolute link of an earlier eligible tag;
   otherwise nothing changes.
   */
  lemma ScanStep(anchors: seq<Anchor>, a: Anchor)
    ensures Scan(anchors + [a]) ==
      if Eligible(a) && a.href.value !in EligibleLinks(anchors) then
        ScanState(Scan(anchors).articles + [ArticleOf(a)], EligibleLinks(anchors) + {ArticleOf(a).link})
      else
        Scan(anchors)
  {
    ScanSnoc(anchors, a);
    ScanFound(anchors);
  }

  /**
   An absolute `href` is skipped when an earlier relative tag normalises to
   it, since the found set holds that tag's absolute link.
   */
  lemma AbsoluteAfterRelativeSkipped(s: seq<Anchor>, r: Anchor, t: seq<Anchor>, b: Anchor)
    requires Eligible(r) && !StartsWith(r.href.value, "http")
    requires b.href == Some(BaseUrl + r.href.value)
    ensures Scan(s + [r] + t + [b]) == Scan(s + [r] + t)
  {
    var before := s + [r] + t;
    assert before[|s|] == r;
    assert b.href.value in EligibleLinks(before);
    ScanStep(before, b);
  }

  /** The found set only grows as more tags are read. */
  lemma FoundGrows(s: seq<Anchor>, t: seq<Anchor>)
    ensures Scan(s).found <= Scan(s + t).found
  {
    ScanFound(s);
    ScanFound(s + t);
    assert forall k :: 0 <= k < |s| ==> (s + t)[k] == s[k];
  }

  /**
   A relative `href` is never in the found set, which holds absolute links
   only; so an eligible relative tag is emitted every time it appears.
   */
  lemma RelativeHrefAlwaysEmitted(anchors: seq<Anchor>, a: Anchor)
    requires Eligible(a) && !StartsWith(a.href.value, "http")
    ensures Scan(anchors + [a]).articles == Scan(anchors).articles + [ArticleOf(a)]
  {
    ScanSnoc(anchors, a);
  }

  /** An absolute `href` seen once is skipped on every later appearance. */
  lemma RepeatedAbsoluteHrefSkipped(s: seq<Anchor>, a: Anchor, t: seq<Anchor>, b: Anchor)
    requires a.href.Some? && StartsWith(a.href.value, "http") && Eligible(a)
    requires b.href == a.href
    ensures Scan(s + [a] + t + [b]) == Scan(s + [a] + t)
  {
    ScanSnoc(s, a);
    assert a.href.value in Scan(s + [a]).found;
    FoundGrows(s + [a], t);
    ScanSnoc(s + [a] + t, b);
  }

  /** Two identical relative tags in a row give two identical articles. */
  lemma RepeatedRelativeHrefEmittedTwice(a: Anchor)
    requires Eligible(a) && !StartsWith(a.href.value, "http")
    ensures Scan([a, a]).articles == [ArticleOf(a), ArticleOf(a)]
  {
    RelativeHrefAlwaysEmitted([], a);
    assert [a, a] == [a] + [a];
    RelativeHrefAlwaysEmitted([a], a);
  }

}

=== FILE: strings.dfy ===
/**
 The three string operations the scraper relies on: `str.startswith`, the
 substring test `needle in s`, and lower-casing (restricted here to ASCII).
 */
module Strings {

  /** `s.startswith(prefix)` */
  predicate StartsWith(s: string, prefix: string)
  {
    |prefix| <= |s| && s[..|prefix|] == prefix
  }

  /** `s.endswith(suffix)` */
  predicate EndsWith(s: string, suffix: string)
  {
    |suffix| <= |s| && s[|s| - |suffix|..] == suffix
  }

  /** `needle` occurs in `s` starting at index `i`. */
  predicate OccursAt(s: string, needle: string, i: int)
  {
    0 <= i && i + |needle| <= |s| && s[i..i + |needle|] == needle
  }

  /** `needle in s`; as in Python, the empty string occurs in every string. */
  predicate Contains(s: string, needle: string)
  {
    exists i :: 0 <= i <= |s| && OccursAt(s, needle, i)
  }

  predicate IsUpperAscii(c: char)
  {
    'A' <= c <= 'Z'
  }

  function LowerChar(c: char): char
  {
    if IsUpperAscii(c) then (c as int + 32) as char else c
  }

  /** Lower-cases every ASCII capital letter and leaves every other character alone. */
  function Lower(s: string): (r: string)
    ensures |r| == |s|
    ensures forall i :: 0 <= i < |s| ==> r[i] == LowerChar(s[i])
    ensures forall i :: 0 <= i < |s| ==> !IsUpperAscii(r[i])
  {
    if s == [] then [] else [LowerChar(s[0])] + Lower(s[1..])
  }

  /** Lower-casing twice is lower-casing once. */
  lemma LowerIdempotent(s: string)
    ensures Lower(Lower(s)) == Lower(s)
  {
    var l := Lower(s);
    assert forall i :: 0 <= i < |l| ==> Lower(l)[i] == l[i];
  }

  /** If some character of `needle` never appears in `s`, then `needle` does not occur in `s`. */
  lemma MissingCharExcludes(s: string, needle: string, c: char)
    requires c in needle && c !in s
    ensures !Contains(s, needle)
  {
  }

  /** A lower-case letter is absent from `Lower(s)` when neither it nor its capital is in `s`. */
  lemma LowerKeepsAbsent(s: string, c: char)
    requires 'a' <= c <= 'z'
    requires c !in s && (c as int - 32) as char !in s
    ensures c !in Lower(s)
  {
    var l := Lower(s);
    forall i | 0 <= i < |l|
      ensures l[i] != c
    {
      assert s[i] in s;
    }
  }

}

=== FILE: triage.dfy ===
/**
 The filter step of a run: which fetched links are remembered, and which
 articles are queued for a notification.
 */
module Triage {

  import opened Strings
  import opened News

  /** The configured keywords. */
  const Keywords: seq<string> := ["nga", "ukraine"]

  /** Case-insensitive substring match against any of the keywords. */
  predicate MatchesKeyword(title: string, keywords: seq<string>)
  {
    exists k :: 0 <= k < |keywords| && Contains(Lower(title), Lower(keywords[k]))
  }

  /** The `any(...)` over the keywords, lower-casing the title once. */
  method AnyKeyword(title: string, keywords: seq<string>) returns (matched: bool)
    ensures matched <==> MatchesKeyword(title, keywords)
  {
    var lowered := Lower(title);
    matched := false;
    for k := 0 to |keywords|
      invariant matched <==> exists j :: 0 <= j < k && Contains(lowered, Lower(keywords[j]))
    {
      if Contains(lowered, Lower(keywords[k])) {
        return true;
      }
    }
  }

  /** An article is queued when its link was not loaded and its title matches. */
  predicate Wanted(loaded: set<string>, keywords: seq<string>, a: Article)
  {
    a.link !in loaded && MatchesKeyword(a.title, keywords)
  }

  /** The notification queue: the wanted articles, in fetch order. */
  function Queue(loaded: set<string>, keywords: seq<string>, fetched: seq<Article>): (q: seq<Article>)
    ensures |q| <= |fetched|
  {
    if fetched == [] then
      []
    else
      var init := fetched[..|fetched| - 1];
      var last := fetched[|fetched| - 1];
      var rest := Queue(loaded, keywords, init);
      if Wanted(loaded, keywords, last) then rest + [last] else rest
  }

  /**
   Each wanted article is queued as many times as it was fetched, duplicates
   included; every other article not at all.
   */
  lemma {:induction false} QueueCount(loaded: set<string>, keywords: seq<string>, fetched: seq<Article>, a: Article)
    ensures multiset(Queue(loaded, keywords, fetched))[a] ==
      if Wanted(loaded, keywords, a) then multiset(fetched)[a] else 0
    decreases |fetched|
  {
    if fetched != [] {
      var init := fetched[..|fetched| - 1];
      var last := fetched[|fetched| - 1];
      assert fetched == init + [last];
      QueueCount(loaded, keywords, init, a);
    }
  }

  /**
   The loop of the run: the link set grows from the loaded one, while the
   membership test is always against the loaded set.
   */
  method Triage(loaded: set<string>, keywords: seq<string>, fetched: seq<Article>)
    returns (toSave: set<string>, toNotify: seq<Article>)
    ensures toSave == loaded + Links(fetched)
    ensures toNotify == Queue(loaded, keywords, fetched)
  {
    toSave := loaded;
    toNotify := [];
    for i := 0 to |fetched|
      invariant toSave == loaded + Links(fetched[..i])
      invariant toNotify == Queue(loaded, keywords, fetched[..i])
    {
      var a := fetched[i];
      assert fetched[..i + 1] == fetched[..i] + [a];
      if a.link !in loaded {
        toSave := toSave + {a.link};
        var matched := AnyKeyword(a.title, keywords);
        TriageStep(loaded, keywords, fetched[..i], a, matched);
        if matched {
          toNotify := toNotify + [a];
        }
      } else {
        TriageStep(loaded, keywords, fetched[..i], a, MatchesKeyword(a.title, keywords));
      }
    }
    assert fetched[..|fetched|] == fetched;
  }

  /** One turn of the filter loop, in terms of the keyword test's outcome. */
  lemma TriageStep(loaded: set<string>, keywords: seq<string>, s: seq<Article>, a: Article, matched: bool)
    requires matched == MatchesKeyword(a.title, keywords)
    ensures Queue(loaded, keywords, s + [a]) ==
      if a.link !in loaded && matched then Queue(loaded, keywords, s) + [a] else Queue(loaded, keywords, s)
    ensures loaded + Links(s + [a]) ==
      if a.link !in loaded then loaded + Links(s) + {a.link} else loaded + Links(s)
  {
    assert (s + [a])[..|s|] == s;
    LinksAppend(s, a);
  }

  /** An article is queued iff it was fetched, its link is new and its title matches. */
  lemma QueuedIff(loaded: set<string>, keywords: seq<string>, fetched: seq<Article>, a: Article)
    ensures a in Queue(loaded, keywords, fetched) <==> a in fetched && Wanted(loaded, keywords, a)
  {
    var q := Queue(loaded, keywords, fetched);
    QueueCount(loaded, keywords, fetched, a);
    assert a in q <==> multiset(q)[a] > 0;
    assert a in fetched <==> multiset(fetched)[a] > 0;
  }

  /** The queue keeps fetch order: filtering a concatenation concatenates the filtered parts. */
  lemma {:induction false} QueueConcat(loaded: set<string>, keywords: seq<string>, s: seq<Article>, t: seq<Article>)
    ensures Queue(loaded, keywords, s + t) == Queue(loaded, keywords, s) + Queue(loaded, keywords, t)
    decreases |t|
  {
    if t == [] {
      assert s + t == s;
    } else {
      var init := t[..|t| - 1];
      var last := t[|t| - 1];
      assert s + t == (s + init) + [last];
      assert (s + t)[..|s + t| - 1] == s + init;
      QueueConcat(loaded, keywords, s, init);
    }
  }

  /** When every fetched article is wanted, the queue is the fetch list itself. */
  lemma {:induction false} QueueAllWanted(loaded: set<string>, keywords: seq<string>, fetched: seq<Article>)
    requires forall i :: 0 <= i < |fetched| ==> Wanted(loaded, keywords, fetched[i])
    ensures Queue(loaded, keywords, fetched) == fetched
    decreases |fetched|
  {
    if fetched != [] {
      var init := fetched[..|fetched| - 1];
      assert forall i :: 0 <= i < |init| ==> init[i] == fetched[i];
      QueueAllWanted(loaded, keywords, init);
      assert fetched == init + [fetched[|fetched| - 1]];
    }
  }

  /** A single fetched article is queued exactly when it is wanted. */
  lemma QueueSingle(loaded: set<string>, keywords: seq<string>, a: Article)
    ensures Queue(loaded, keywords, [a]) == if Wanted(loaded, keywords, a) then [a] else []
  {
    assert [a][..0] == [];
  }

  /** An article whose link was loaded changes neither the queue nor the saved links. */
  lemma SeenArticleIgnored(loaded: set<string>, keywords: seq<string>, s: seq<Article>, a: Article, t: seq<Article>)
    requires a.link in loaded
    ensures Queue(loaded, keywords, s + [a] + t) == Queue(loaded, keywords, s + t)
    ensures loaded + Links(s + [a] + t) == loaded + Links(s + t)
  {
    QueueConcat(loaded, keywords, s + [a], t);
    QueueConcat(loaded, keywords, s, [a]);
    QueueConcat(loaded, keywords, s, t);
    QueueSingle(loaded, keywords, a);
    LinksConcat(s + [a], t);
    LinksAppend(s, a);
    LinksConcat(s, t);
  }

  /** A new link fetched twice with a matching title is queued twice. */
  lemma DuplicateQueuedTwice(loaded: set<string>, keywords: seq<string>, a: Article)
    requires Wanted(loaded, keywords, a)
    ensures Queue(loaded, keywords, [a, a]) == [a, a]
  {
    assert [a, a] == [a] + [a];
    QueueConcat(loaded, keywords, [a], [a]);
    QueueSingle(loaded, keywords, a);
  }

  /** Filtering the same articles again against the saved links queues nothing. */
  lemma RefilterQueuesNothing(loaded: set<string>, keywords: seq<string>, fetched: seq<Article>)
    ensures Queue(loaded + Links(fetched), keywords, fetched) == []
  {
    var q := Queue(loaded + Links(fetched), keywords, fetched);
    if q != [] {
      assert q[0] in q;
      QueuedIff(loaded + Links(fetched), keywords, fetched, q[0]);
      assert false;
    }
  }

  /**
   "Nga tấn công Ukraine" matches the configured keywords.
   The literal comes in through `requires` so that the solver unfolds
   `Lower` on it only where this proof needs it.
   */
  lemma MatchingTitleExample(title: string, keywords: seq<string>)
    requires title == "Nga t\U{1EA5}n c\U{00F4}ng Ukraine" && keywords == Keywords
    ensures MatchesKeyword(title, keywords)
  {
    var lowered := Lower(title);
    var nga := Lower(keywords[0]);
    assert nga[0] == 'n' && nga[1] == 'g' && nga[2] == 'a';
    assert lowered[0] == 'n' && lowered[1] == 'g' && lowered[2] == 'a';
    assert lowered[0..3] == nga;
    assert OccursAt(lowered, nga, 0);
  }

  /**
   "Tin tức thể thao" has no `g` and no `k`, in either case.
   The literal comes in through `requires` so that the solver unfolds
   `Lower` on it only where this proof needs it.
   */
  lemma SportsTitleLacksGK(title: string)
    requires title == "Tin t\U{1EE9}c th\U{1EC3} thao"
    ensures forall i :: 0 <= i < |title| ==> title[i] !in "gGkK"
  {
  }

  /** A title without `g`, `G`, `k` and `K` keeps none of `g` and `k` once lower-cased. */
  lemma LoweredLacksGK(title: string)
    requires forall i :: 0 <= i < |title| ==> title[i] !in "gGkK"
    ensures 'g' !in Lower(title) && 'k' !in Lower(title)
  {
    LowerKeepsAbsent(title, 'g');
    LowerKeepsAbsent(title, 'k');
  }

  /** "nga" has a `g` and "ukraine" a `k`, also once lower-cased. */
  lemma KeywordsHaveGK(keywords: seq<string>)
    requires keywords == Keywords
    ensures |keywords| == 2 && 'g' in Lower(keywords[0]) && 'k' in Lower(keywords[1])
  {
    assert Lower(keywords[0])[1] == 'g';
    assert Lower(keywords[1])[1] == 'k';
  }

  /** Two keywords, one with a `g` and one with a `k`, cannot occur in a title lacking both letters. */
  lemma NoGKMatchesNothing(title: string, keywords: seq<string>)
    requires forall i :: 0 <= i < |title| ==> title[i] !in "gGkK"
    requires |keywords| == 2 && 'g' in Lower(keywords[0]) && 'k' in Lower(keywords[1])
    ensures !MatchesKeyword(title, keywords)
  {
    LoweredLacksGK(title);
    MissingCharExcludes(Lower(title), Lower(keywords[0]), 'g');
    MissingCharExcludes(Lower(title), Lower(keywords[1]), 'k');
  }

  /**
   "Tin tức thể thao" matches neither keyword.
   The literal comes in through `requires` so that the solver unfolds
   `Lower` on it only where this proof needs it.
   */
  lemma NonMatchingTitleExample(title: string, keywords: seq<string>)
    requires title == "Tin t\U{1EE9}c th\U{1EC3} thao" && keywords == Keywords
    ensures !MatchesKeyword(title, keywords)
  {
    SportsTitleLacksGK(title);
    KeywordsHaveGK(keywords);
    NoGKMatchesNothing(title, keywords);
  }


}

=== FILE: wrappers.dfy ===
/** A value that may be absent: an optional HTML attribute, or the result of a run that ended early. */
module Wrappers {

  datatype Option<+T> = None | Some(value: T)

}
